=== FILE: README.md ===
# Currency converter (conversor de monedas) — Dafny model

This project models the decision logic of a console currency converter written in Java.
The converter reads an Exchange Rate API key, shows a menu of seven fixed currency pairs plus "exit",
reads an amount, asks the Exchange Rate API v6 pair-conversion endpoint for the converted value,
and prints the result with Spanish currency names.

Everything that touches the outside world is a parameter:

- the environment value and the state of `config.properties`;
- the console input, as a sequence of tokens;
- the HTTP exchange, as a function from the request's number in the run and its URL to the response (status and JSON fields). Each call sends a fresh GET, so two identical requests in one run may get different answers;
- `Double.toString`, as a function from amount to text.

The model has one module per source file, plus two supporting modules.

- `Wrappers` (`wrappers.dfy`): `Option`, which stands for a Java reference that may be null, and `Result`, which stands for a value or an exception.
- `JavaText` (`java_text.dfy`): the `String` operations the code relies on.
  - `trim` strips every character up to U+0020.
  - `isBlank` uses `Character.isWhitespace`. This is a different set from the one `trim` strips.
  - `toUpperCase` is restricted to ASCII letters.
  - `String.format` is modelled for `%s` conversions only.
  - Split/join on a separator is used to read a request URL back into its parts.
- `ApiConfig` (`api_config.dfy`): finds the key. It tries the environment first and then the properties file.
- `ExchangeRateApiClient` (`exchange_rate_api_client.dfy`):
  - checks and trims the key in the constructor;
  - fills in the request URL template;
  - classifies the response into a result, an API error (`ExchangeRateApiException`), an `IOException`, or an unchecked exception that the code does not catch.
- `ConversorService` (`conversor_service.dfy`): upper-cases the codes, calls the client, and adds display names.
- `Console` (`console.dfy`), the model of `Main`:
  - the start-up key check;
  - one pass of the menu loop (`Step`), what that pass prints (`Report`), and the whole loop (`Run`);
  - the program (`Launch`) and its exit status.

Behaviour worth knowing:

- A 200 response whose body is not a JSON object makes Gson throw an unchecked exception. So does a member of the wrong kind (an object, JSON `null`, or an array that does not hold exactly one primitive) that the client reads: `result`, `error-type` when present (so `{"result":"error","error-type":null}` crashes instead of printing an API error), or one of the four success fields. A missing member makes `json.get` return `null`, and the client's own `getAsString()` or `getAsDouble()` call on it throws `NullPointerException`. `convert`, `convertir` and `ejecutarConversion` catch neither, so the program ends with exit status 1. The model has an `Unchecked` error and a `Crashed` ending for these cases.
- The result's currency codes are whatever the API returns. Nothing checks that they are upper case or equal to the requested codes. Nothing checks that the rate and value are non-negative.
- `Properties.load` throws `IllegalArgumentException` on a malformed `\uXXXX` escape, and `ApiConfig` catches only `IOException`, so that exception escapes `main`. No other content makes `load` throw. See "Left out".

## Model

| member | source | states |
|---|---|---|
| JavaText.Trim | src/main/java/com/example/api/ExchangeRateApiClient.java:27 | The trimmed key is the part of the input from the first character above U+0020 on. Everything cut from either end is at most U+0020. The result has no such character at either end. |
| JavaText.TrimOfPadded | src/main/java/com/example/config/ApiConfig.java:27 | Trimming is unique: pad a trimmed string with characters up to U+0020 on either side, trim it, and you get the string back. As a consequence, trimming twice equals trimming once. |
| JavaText.TrimAndBlankDisagree | src/main/java/com/example/config/ApiConfig.java:26-27 | `isBlank` and `trim` disagree in both directions. U+0001 is not blank but trims to "". U+1680 is blank but `trim` keeps it. |
| JavaText.ToUpperCase | src/main/java/com/example/service/ConversorService.java:46-50 | Upper-casing keeps the length, maps each ASCII lower-case letter to its capital, leaves every other character alone, and leaves no lower-case ASCII letter behind. |
| JavaText.Format | src/main/java/com/example/api/ExchangeRateApiClient.java:43 | `String.format` with `%s` fails (missing argument) exactly when there are fewer arguments than `%s` conversions. |
| ApiConfig.GetApiKey | src/main/java/com/example/config/ApiConfig.java:24-45 | A key is found exactly when the environment or the file holds a non-blank value. A non-blank environment value wins and is returned trimmed. Otherwise the file's `exchange.rate.api.key` is returned trimmed. Every returned key is trimmed, and no file state raises an error. |
| ApiConfig.EnvTakesPrecedence | src/main/java/com/example/config/ApiConfig.java:25-38 | When the environment value is non-blank, the result is the same whatever the file holds. |
| ApiConfig.NoKeyWithoutSources | src/main/java/com/example/config/ApiConfig.java:30-44 | With no usable environment value, each of these gives "no key": a missing file, an unreadable file, a missing property, or a blank property. |
| ApiConfig.ResolvedKeyMayBeBlank | src/main/java/com/example/config/ApiConfig.java:25-28 | A resolved key can still be blank: U+0001 U+1680 resolves to U+1680. This is why `main` checks the key for blankness again. |
| ExchangeRateApiClient.NewClient | src/main/java/com/example/api/ExchangeRateApiClient.java:23-28 | The constructor accepts exactly the non-null, non-blank keys. It stores the key trimmed. Any other key is rejected with the `IllegalArgumentException` message. |
| ExchangeRateApiClient.NewClientKeepsTrimmedKey | src/main/java/com/example/api/ExchangeRateApiClient.java:27 | An already trimmed, non-blank key is stored unchanged. |
| ExchangeRateApiClient.FormatPairTemplate | src/main/java/com/example/api/ExchangeRateApiClient.java:19 | The pair template has four `%s` slots. With four arguments, formatting it always succeeds. |
| ExchangeRateApiClient.RequestUrl | src/main/java/com/example/api/ExchangeRateApiClient.java:43 | The URL is the v6 prefix, then the key, `/pair/`, the base code, `/`, the target code, `/`, and the amount text, in that order and unescaped. |
| ExchangeRateApiClient.RequestUrlRoundTrip | src/main/java/com/example/api/ExchangeRateApiClient.java:43 | When no value contains '/', the four values can be read back from the URL, each from its own position. |
| ExchangeRateApiClient.ClassifyObject | src/main/java/com/example/api/ExchangeRateApiClient.java:56-72 | `result == "error"` gives an API error when `error-type` is absent or a primitive. The error carries the `error-type` text, or "unknown" when that member is absent. Otherwise, success happens exactly when the four fields are readable, and they are returned verbatim. Anything else is an unchecked failure, never an `IOException`. |
| ExchangeRateApiClient.Classify | src/main/java/com/example/api/ExchangeRateApiClient.java:51-72 | Any status other than 200 is an `IOException` carrying that status. An `IOException` happens exactly for these cases: no connection, a status other than 200, or an unavailable body stream. A 200 body that is not a JSON object is an unchecked failure, and a 200 JSON object is classified field by field as `ClassifyObject` says. |
| ExchangeRateApiClient.StatusDecidesFirst | src/main/java/com/example/api/ExchangeRateApiClient.java:51-54 | For a status other than 200, the body is not looked at. |
| ExchangeRateApiClient.Convert | src/main/java/com/example/api/ExchangeRateApiClient.java:40-73 | The result is the classification of the network's answer to this request's GET of the URL made of the v6 prefix, the stored key, `/pair/`, the two codes as given and the amount's text. |
| ExchangeRateApiClient.ConvertDependsOnlyOnTheAnswer | src/main/java/com/example/api/ExchangeRateApiClient.java:43-51 | Two networks that give the same answer to the pair URL give the same result. |
| ExchangeRateApiClient.ConvertReturnsTheApiFields | src/main/java/com/example/api/ExchangeRateApiClient.java:66-71 | A 200 answer with the four readable success fields is returned field by field, whatever codes were asked for. |
| ExchangeRateApiClient.ConvertAsksForThePair | src/main/java/com/example/api/ExchangeRateApiClient.java:43-51 | When no value contains '/', the key, both codes and the amount's text can be read back from the URL that is requested, and the result is the classification of the answer to that URL. |
| ConversorService.DisplayName | src/main/java/com/example/service/ConversorService.java:52-53 | A registered code gets its table name. The name equals the code exactly when the code is not registered. |
| ConversorService.RegisteredNames | src/main/java/com/example/service/ConversorService.java:17-29 | The nine registered codes and their Spanish names. |
| ConversorService.NineRegisteredCurrencies | src/main/java/com/example/service/ConversorService.java:17-29 | No other code is registered. |
| ConversorService.RegisteredNamesAreDistinct | src/main/java/com/example/service/ConversorService.java:17-29 | Two different registered codes never share a name. |
| ConversorService.Convert | src/main/java/com/example/service/ConversorService.java:43-64 | The client is asked with both codes upper-cased. Its failures are passed on unchanged. On success, the codes, rate and final value come from the client, not from the request. The names are looked up from the client's codes. The requested amount is kept as given. |
| ConversorService.ConvertIgnoresCase | src/main/java/com/example/service/ConversorService.java:46-50 | Converting with mixed-case codes gives the same result as converting with upper-case codes. |
| ConversorService.ConvertConsultsUpperCaseOnly | src/main/java/com/example/service/ConversorService.java:46-50 | Two clients that agree on the upper-cased request give the same result. |
| Console.ReadOption | src/main/java/com/example/Main.java:70-76 | An integer token reads as its own value; any other token reads as -1. |
| Console.ReadOptionSelectsExactly | src/main/java/com/example/Main.java:70-76 | A token selects a menu entry exactly when it is an integer from 1 to 8. |
| Console.ReadAmount | src/main/java/com/example/Main.java:78-85 | A decimal token reads as its own value; any other token reads as -1. |
| Console.ReadAmountAcceptsExactly | src/main/java/com/example/Main.java:78-85 | A token is a usable amount exactly when it is a positive decimal. |
| Console.PairFor | src/main/java/com/example/Main.java:91-100 | Options 1 to 7 have a pair, and no other option does. Each pair is two different registered currencies, one of them USD. |
| Console.PairTable | src/main/java/com/example/Main.java:91-98 | 1 is USD/ARS, 2 is ARS/USD, 3 is USD/BRL, 4 is BRL/USD, 5 is USD/COP, 6 is COP/USD and 7 is USD/BOB. |
| Console.EvenOptionsReverseOddOnes | src/main/java/com/example/Main.java:92-97 | Options 2, 4 and 6 are the reverse pairs of options 1, 3 and 5. |
| Console.MenuCodesAreUpperCase | src/main/java/com/example/Main.java:103 | The menu codes are already upper case, so upper-casing them in the service changes nothing. |
| Console.ApiErrorMessage | src/main/java/com/example/Main.java:117-126 | Each of the five documented error types maps to its fixed message. The message equals the error type, verbatim, exactly when the type is not documented. |
| Console.ApiErrorMessageExamples | src/main/java/com/example/Main.java:121-124 | "invalid-key" gives its fixed message. "foo-bar" and "unknown" are echoed. |
| Console.ExecuteConversion | src/main/java/com/example/Main.java:87-103 | The service is called once, with the option's pair and the amount, exactly for options 1 to 7. For any other option it returns without a call. |
| Console.Step | src/main/java/com/example/Main.java:36-53 | One pass of the loop. Option 8 says goodbye. Any option outside 1 to 8, including a non-integer, is rejected without reading an amount. For options 1 to 7 an amount is read. A non-numeric or non-positive amount is rejected. Only a positive amount reaches the service, with the option's pair. Every pass consumes input. |
| Console.OnlyConversionsUseTheService | src/main/java/com/example/Main.java:39-51 | A pass that does not convert is the same whatever the service would answer. |
| Console.Report | src/main/java/com/example/Main.java:39-113 | Option 8 prints the farewell, an option outside 1 to 8 the invalid-option line, and an amount that is not positive the positive-value line. A success prints the sentence with the original amount, the converted amount and both names. An API error prints through the message mapping. Every `IOException` prints the connectivity message, whatever its cause. An unchecked exception prints nothing. |
| Console.OneLinePerContinuingPass | src/main/java/com/example/Main.java:39-52 | A pass that continues the loop prints exactly one line. A pass that ends it prints one line for option 8 and nothing otherwise. |
| Console.Run | src/main/java/com/example/Main.java:34-54 | The loop. The first pass follows the first tokens: nothing when the input runs out before an option or its amount, goodbye alone for option 8, a rejection for an option outside 1 to 8 or for an amount that is not positive, and otherwise the service's answer for the option's pair. Every pass but the last continues. The loop says goodbye exactly when its last pass read option 8, and crashes exactly when its last pass met an unchecked exception. Every service call used a menu pair and a positive amount, and the calls were answered in order. |
| Console.AnsweredInOrderByPosition | src/main/java/com/example/Main.java:36-53 | The conversion at position `i` of a session got the service's answer to call number "calls so far" plus the conversions before position `i`. |
| Console.ContinuingPassIsFollowedByTheRest | src/main/java/com/example/Main.java:43-53 | After a pass that continues the loop, the session goes on with the rest of the input, and the call count goes up by one for a conversion. |
| Console.InvalidOptionContinues | src/main/java/com/example/Main.java:50-53 | An option outside 1 to 8 is rejected, and the loop goes on with the next token. |
| Console.NotPositiveContinues | src/main/java/com/example/Main.java:43-49 | An amount that is not positive is rejected without a service call, and the loop goes on after the amount. |
| Console.ConversionContinues | src/main/java/com/example/Main.java:43-46 | A conversion that does not end in an unchecked exception is followed by the session on the rest of the input, with the next call numbered one higher. |
| Console.ExitEndsTheLoop | src/main/java/com/example/Main.java:39-42 | Option 8 ends the loop at once with the farewell and no conversion, whatever input follows. |
| Console.SessionWithoutConversionsIgnoresService | src/main/java/com/example/Main.java:36-53 | A whole session that made no service call is the same whatever the service would answer. |
| Console.DollarToPesoExample | src/main/java/com/example/Main.java:102-108 | Take 50 USD to ARS at a rate of 1000, then option 8. The sentence shows 50 "dólares estadounidenses" and 50000 "pesos argentinos", and the loop says goodbye. |
| Console.Launch | src/main/java/com/example/Main.java:16-34 | The program stops before the loop exactly when the resolved key is missing or blank. Otherwise the constructor accepts the key and keeps it exactly as resolved, and the loop runs on the whole input with that client's service, starting at the first request. |
| Console.SessionConverterAsksUpperCasedPair | src/main/java/com/example/service/ConversorService.java:46-57 | Each call of the running program's service is one request for the upper-cased codes. Its failures are passed on as they are, and on success the final value is the API's. |
| Console.LaunchUsesFileKey | src/main/java/com/example/config/ApiConfig.java:30-42 | With no usable environment value and a file key that stays non-blank once trimmed, the loop starts with a client holding the trimmed file key. |
| Console.LaunchThenExit | src/main/java/com/example/Main.java:16-42 | With a usable key and option 8 as the first input, the program says goodbye and exits with status 0. |
| Console.ControlCharacterEnvShadowsFile | src/main/java/com/example/config/ApiConfig.java:25-28 | The environment value is checked for blankness before it is trimmed. So a value of U+0001 beats a usable file key, trims to "", and the program stops for want of a key. |
| Console.StartupErrors | src/main/java/com/example/Main.java:17-22 | The two instruction lines, in order, go to the error stream exactly when the key is missing. |
| Console.ExitStatus | src/main/java/com/example/Main.java:18-21 | The exit status is 0 only after option 8. It is 1 for a missing key and for an exception that escapes `main`. |

## Left out

- Network I/O is a parameter. This covers `HttpURLConnection`, the 10-second connect and read timeouts, and the GET itself. The model reduces each exchange to no connection, or a status with a body.
- Gson parsing is a parameter. The body is the map of its top-level fields. Each field is a primitive, with its `getAsString` text and its `getAsDouble` value, or a non-primitive. Gson unwraps single-element arrays in `getAsString` and `getAsDouble`. The model counts them as non-primitive, so it reports a failure where Gson would read the element.
- Numbers are `real`. There is no `double` rounding, NaN or infinity. `Scanner` would accept "NaN" and "Infinity". `Double.toString` of the amount in the URL is a parameter. The es-AR `NumberFormat` rendering with two decimals is not modelled: a `Sentence` line carries the two amounts unformatted.
- Tokenisation by `Scanner` is left out. Each token comes with what `nextInt` and `nextDouble` would read from it. This includes the 32-bit range of `nextInt` and locale-specific number syntax.
- The menu text, the banner, the prompts and the `try`-with-resources lifetime of the scanner are not modelled.
- JavaText.ToUpperCase: upper-cases ASCII letters only, because Java's `toUpperCase` follows the default locale and full Unicode case mapping.
- Properties-file syntax is a parameter. `Properties.load` throws `IllegalArgumentException` on a malformed `\uXXXX` escape. `ApiConfig` does not catch that exception, so it would escape `main`. The model's file states (missing, unreadable, loaded) do not include this case.
- JavaText.Format: covers templates whose only conversion is `%s`, because other conversions never occur in the code.
- `System.exit` is modelled only as the exit status that `ExitStatus` returns.

=== FILE: api_config.dfy ===
/** Resolution of the Exchange Rate API key: the environment variable first,
    then the `exchange.rate.api.key` property of `config.properties`. Reading
    the environment and the file system is replaced by two parameters. */
module ApiConfig {
  import opened Wrappers
  import opened JavaText

  const EnvVar: string := "EXCHANGE_RATE_API_KEY"
  const ConfigFile: string := "config.properties"
  const ConfigKey: string := "exchange.rate.api.key"

  /** What the program finds at `config.properties`: no file, a file whose
      reading throws an `IOException`, or the loaded properties. */
  datatype ConfigFileState =
    | Missing
    | Unreadable
    | Loaded(properties: map<string, string>)

  /** The property value that is accepted as a key, if any. */
  predicate HasFileKey(file: ConfigFileState) {
    file.Loaded? && ConfigKey in file.properties && !IsBlank(file.properties[ConfigKey])
  }

  predicate HasEnvKey(env: Option<string>) {
    env.Some? && !IsBlank(env.value)
  }

  /** `getApiKey`, with `env` the value of `EXCHANGE_RATE_API_KEY` (`None` when
      unset) and `file` the state of `config.properties`. A key is found exactly
      when one of the two sources holds a non-blank value; the environment wins,
      the value is returned trimmed, and no file state makes it fail. */
  function GetApiKey(env: Option<string>, file: ConfigFileState): (r: Option<string>)
    ensures r.Some? <==> HasEnvKey(env) || HasFileKey(file)
    ensures HasEnvKey(env) ==> r == Some(Trim(env.value))
    ensures !HasEnvKey(env) && HasFileKey(file) ==> r == Some(Trim(file.properties[ConfigKey]))
    ensures r.Some? ==> IsTrimmed(r.value)
  {
    if env.Some? && !IsBlank(env.value) then Some(Trim(env.value))
    else match file
      case Loaded(properties) =>
        if ConfigKey in properties && !IsBlank(properties[ConfigKey])
        then Some(Trim(properties[ConfigKey]))
        else None
      case Missing => None
      case Unreadable => None
  }

  /** A usable environment value makes the file irrelevant. */
  lemma EnvTakesPrecedence(env: Option<string>, f1: ConfigFileState, f2: ConfigFileState)
    requires HasEnvKey(env)
    ensures GetApiKey(env, f1) == GetApiKey(env, f2) == Some(Trim(env.value))
  {
  }

  /** A missing file, an unreadable one, or one without a non-blank key
      property all give "no key" when the environment has none. */
  lemma NoKeyWithoutSources(env: Option<string>, file: ConfigFileState)
    requires !HasEnvKey(env)
    requires file.Missing? || file.Unreadable? || (file.Loaded? && (ConfigKey !in file.properties || IsBlank(file.properties[ConfigKey])))
    ensures GetApiKey(env, file) == None
  {
  }

  /** A resolved key may still be blank: an environment value of U+0001 U+1680
      is not blank, and trimming it leaves the blank Ogham space mark. */
  lemma ResolvedKeyMayBeBlank()
    ensures GetApiKey(Some("\U{1}\U{1680}"), Missing) == Some("\U{1680}")
    ensures IsBlank("\U{1680}")
  {
    assert !IsJavaWhitespace("\U{1}\U{1680}"[0]);
    assert "\U{1}\U{1680}" == "\U{1}" + "\U{1680}" + "";
    TrimOfPadded("\U{1}", "\U{1680}", "");
  }
}

=== FILE: console.dfy ===
/** The interactive shell (`Main`): key check at start-up, then a menu loop
    that reads a selection and, for a currency pair, an amount. Console input
    is a sequence of tokens, console output a sequence of lines, and the
    conversion service a parameter. */
module Console {
  import opened Wrappers
  import opened JavaText
  import opened ApiConfig
  import opened ExchangeRateApiClient
  import opened ConversorService

  const ExitOption: int := 8

  const FarewellText: string := "Hasta luego."
  const NotPositiveText: string := "Por favor ingresa un valor numérico positivo."
  const InvalidOptionText: string := "Opción no válida. Elige un número del 1 al 8."
  const ApiErrorPrefix: string := "Error de la API: "
  const ConnectionErrorText: string := "Error de conexión. Verifica tu internet e intenta de nuevo."
  const MissingKeyLines: seq<string> := [
    "No se encontró la API key. Configura la variable de entorno " + EnvVar,
    "o crea un archivo " + ConfigFile + " con: " + ConfigKey + "=TU_API_KEY"
  ]

  // ---------------------------------------------------------------------------
  // Input
  // ---------------------------------------------------------------------------

  /** One whitespace-separated input token, with what `Scanner.nextInt` and
      `Scanner.nextDouble` would read from it (`None` when `hasNextInt` or
      `hasNextDouble` is false). */
  datatype Token = Token(asInt: Option<int>, asDecimal: Option<real>)

  /** `leerOpcion`: the integer, or -1 once a non-integer token is consumed.
      A non-integer token never selects a menu entry. */
  function ReadOption(token: Token): (option: int)
    ensures token.asInt.Some? ==> option == token.asInt.value
    ensures token.asInt.None? ==> option == -1
  {
    match token.asInt
    case Some(n) => n
    case None => -1
  }

  /** `leerCantidad`: the decimal, or -1 once a non-numeric token is consumed.
      A non-numeric token is never a positive amount. */
  function ReadAmount(token: Token): (amount: real)
    ensures token.asDecimal.Some? ==> amount == token.asDecimal.value
    ensures token.asDecimal.None? ==> amount == -1.0
  {
    match token.asDecimal
    case Some(x) => x
    case None => -1.0
  }

  /** A token selects a menu entry exactly when it is an integer from 1 to 8. */
  lemma ReadOptionSelectsExactly(token: Token)
    ensures 1 <= ReadOption(token) <= ExitOption <==>
              token.asInt.Some? && 1 <= token.asInt.value <= ExitOption
  {
  }

  /** A token is a usable amount exactly when it is a positive decimal. */
  lemma ReadAmountAcceptsExactly(token: Token)
    ensures ReadAmount(token) > 0.0 <==> token.asDecimal.Some? && token.asDecimal.value > 0.0
  {
  }

  // ---------------------------------------------------------------------------
  // Fixed tables
  // ---------------------------------------------------------------------------

  datatype CurrencyPair = CurrencyPair(origin: string, target: string)

  /** The pairs of menu options 1 to 7, in order. */
  const MenuPairs: seq<CurrencyPair> := [
    CurrencyPair("USD", "ARS"),
    CurrencyPair("ARS", "USD"),
    CurrencyPair("USD", "BRL"),
    CurrencyPair("BRL", "USD"),
    CurrencyPair("USD", "COP"),
    CurrencyPair("COP", "USD"),
    CurrencyPair("USD", "BOB")
  ]

  /** The `switch` of `ejecutarConversion`: a pair for options 1 to 7 only,
      always two different registered currencies one of which is the dollar. */
  function PairFor(option: int): (pair: Option<CurrencyPair>)
    ensures pair.Some? <==> 1 <= option <= 7
    ensures pair.Some? ==> pair.value in MenuPairs
    ensures pair.Some? ==> pair.value.origin != pair.value.target
    ensures pair.Some? ==> pair.value.origin == "USD" || pair.value.target == "USD"
    ensures pair.Some? ==> pair.value.origin in CurrencyNames && pair.value.target in CurrencyNames
  {
    if 1 <= option <= 7 then Some(MenuPairs[option - 1]) else None
  }

  lemma PairTable()
    ensures PairFor(1) == Some(CurrencyPair("USD", "ARS"))
    ensures PairFor(2) == Some(CurrencyPair("ARS", "USD"))
    ensures PairFor(3) == Some(CurrencyPair("USD", "BRL"))
    ensures PairFor(4) == Some(CurrencyPair("BRL", "USD"))
    ensures PairFor(5) == Some(CurrencyPair("USD", "COP"))
    ensures PairFor(6) == Some(CurrencyPair("COP", "USD"))
    ensures PairFor(7) == Some(CurrencyPair("USD", "BOB"))
  {
  }

  /** Options 2, 4 and 6 undo options 1, 3 and 5. */
  lemma EvenOptionsReverseOddOnes(option: int)
    requires option == 1 || option == 3 || option == 5
    ensures PairFor(option + 1) == Some(CurrencyPair(PairFor(option).value.target, PairFor(option).value.origin))
  {
  }

  /** The menu codes are upper case already, so the service passes them on as they are. */
  lemma MenuCodesAreUpperCase(option: int)
    requires 1 <= option <= 7
    ensures ToUpperCase(PairFor(option).value.origin) == PairFor(option).value.origin
    ensures ToUpperCase(PairFor(option).value.target) == PairFor(option).value.target
  {
    var p := PairFor(option).value;
    MenuCodeIsUpperCase(p.origin);
    MenuCodeIsUpperCase(p.target);
  }

  /** The four codes the menu uses are already upper case. */
  lemma MenuCodeIsUpperCase(code: string)
    requires code in {"USD", "ARS", "BRL", "COP", "BOB"}
    ensures ToUpperCase(code) == code
  {
    if code == "USD" {
      ToUpperCaseOfUpper("USD");
    } else if code == "ARS" {
      ToUpperCaseOfUpper("ARS");
    } else if code == "BRL" {
      ToUpperCaseOfUpper("BRL");
    } else if code == "COP" {
      ToUpperCaseOfUpper("COP");
    } else {
      ToUpperCaseOfUpper("BOB");
    }
  }

  /** The messages of `mensajeErrorApi` for the five documented error types. */
  const ApiErrorMessages: map<string, string> := map[
    "quota-reached" := "Se ha alcanzado el límite de solicitudes del plan.",
    "inactive-account" := "La cuenta no está activa (confirma tu email).",
    "invalid-key" := "La API key no es válida.",
    "malformed-request" := "La solicitud no es correcta.",
    "unsupported-code" := "Código de moneda no soportado."
  ]

  /** `mensajeErrorApi`: the fixed message of a documented error type, and
      the error type itself, verbatim, exactly when it is not documented. */
  function ApiErrorMessage(errorType: string): (message: string)
    ensures errorType in ApiErrorMessages ==> message == ApiErrorMessages[errorType]
    ensures message == errorType <==> errorType !in ApiErrorMessages
  {
    if errorType in ApiErrorMessages then ApiErrorMessages[errorType] else errorType
  }

  lemma ApiErrorMessageExamples()
    ensures ApiErrorMessage("invalid-key") == "La API key no es válida."
    ensures ApiErrorMessage("foo-bar") == "foo-bar"
    ensures ApiErrorMessage("unknown") == "unknown"
  {
  }

  // ---------------------------------------------------------------------------
  // One pass of the loop
  // ---------------------------------------------------------------------------

  /** `ConversorService.convertir` as the shell sees it. The first argument
      is the number of earlier calls in the run: each call sends a new
      request, whose answer may differ from an earlier one. */
  type Converter = (nat, string, string, real) -> Result<DisplayResult, ClientError>

  /** What one pass of the loop did: said goodbye, rejected the option,
      rejected the amount, called the service, returned from
      `ejecutarConversion` without a pair, or found the input exhausted. */
  datatype Outcome =
    | Farewell
    | InvalidOption
    | NotPositive
    | Conversion(pair: CurrencyPair, amount: real, result: Result<DisplayResult, ClientError>)
    | Skipped
    | InputEnded

  /** `ejecutarConversion` up to printing, as call number `calls` of the run:
      the service is called once with the option's pair, or, for an option
      without a pair, not at all. */
  function ExecuteConversion(convert: Converter, calls: nat, option: int, amount: real): (o: Outcome)
    ensures o.Conversion? <==> 1 <= option <= 7
    ensures !o.Conversion? ==> o == Skipped
    ensures o.Conversion? ==>
              && Some(o.pair) == PairFor(option)
              && o.amount == amount
              && o.result == convert(calls, o.pair.origin, o.pair.target, amount)
  {
    match PairFor(option)
    case Some(pair) => Conversion(pair, amount, convert(calls, pair.origin, pair.target, amount))
    case None => Skipped
  }

  datatype Turn = Turn(outcome: Outcome, rest: seq<Token>)

  /** One pass of the `do … while` loop over the remaining input. Option 8
      says goodbye; any option outside 1..8, a non-integer included, is
      rejected without reading an amount; for 1..7 an amount is read and
      only a positive one reaches the service, as call number `calls`. */
  function Step(input: seq<Token>, convert: Converter, calls: nat): (t: Turn)
    ensures |t.rest| <= |input| && t.rest == input[|input| - |t.rest|..]
    ensures t.outcome != InputEnded ==> |t.rest| < |input|
    ensures t.outcome != Skipped
    ensures t.outcome == InputEnded <==>
              |input| == 0 || (|input| == 1 && 1 <= ReadOption(input[0]) <= 7)
    ensures t.outcome == Farewell <==> |input| > 0 && ReadOption(input[0]) == ExitOption
    ensures t.outcome == InvalidOption <==> |input| > 0 && !(1 <= ReadOption(input[0]) <= ExitOption)
    ensures t.outcome == InvalidOption ==> t.rest == input[1..]
    ensures t.outcome == NotPositive <==>
              |input| > 1 && 1 <= ReadOption(input[0]) <= 7 && ReadAmount(input[1]) <= 0.0
    ensures t.outcome == NotPositive ==> t.rest == input[2..]
    ensures t.outcome.Conversion? <==>
              |input| > 1 && 1 <= ReadOption(input[0]) <= 7 && ReadAmount(input[1]) > 0.0
    ensures t.outcome.Conversion? ==>
              && Some(t.outcome.pair) == PairFor(ReadOption(input[0]))
              && t.outcome.amount == ReadAmount(input[1])
              && t.outcome.result == convert(calls, t.outcome.pair.origin, t.outcome.pair.target, t.outcome.amount)
              && t.rest == input[2..]
  {
    if |input| == 0 then Turn(InputEnded, input)
    else
      var option := ReadOption(input[0]);
      if option == ExitOption then Turn(Farewell, input[1..])
      else if 1 <= option <= 7 then
        if |input| == 1 then Turn(InputEnded, input[1..])
        else
          var amount := ReadAmount(input[1]);
          if amount > 0.0 then Turn(ExecuteConversion(convert, calls, option, amount), input[2..])
          else Turn(NotPositive, input[2..])
      else Turn(InvalidOption, input[1..])
  }

  /** Every pass that does not call the service is the same whatever the service. */
  lemma OnlyConversionsUseTheService(input: seq<Token>, c1: Converter, c2: Converter, calls: nat)
    requires !Step(input, c1, calls).outcome.Conversion?
    ensures Step(input, c1, calls) == Step(input, c2, calls)
  {
  }

  // ---------------------------------------------------------------------------
  // Output of one pass
  // ---------------------------------------------------------------------------

  /** A printed line: plain text, or the result sentence, whose two amounts
      `NumberFormat` renders for the es-AR locale. */
  datatype Line =
    | Say(text: string)
    | Sentence(originalAmount: real, originName: string, finalValue: real, targetName: string)

  /** The exception that escapes the loop: one the client does not catch. */
  predicate Crashes(o: Outcome) {
    o.Conversion? && o.result.Failure? && o.result.error.Unchecked?
  }

  /** What a pass prints after the menu. An API error is shown through
      `ApiErrorMessage`; every `IOException` gives the same connectivity line,
      whatever its cause; an unchecked exception prints nothing here. */
  function Report(o: Outcome): (lines: seq<Line>)
    ensures |lines| <= 1
    ensures o == Farewell ==> lines == [Say(FarewellText)]
    ensures o == InvalidOption ==> lines == [Say(InvalidOptionText)]
    ensures o == NotPositive ==> lines == [Say(NotPositiveText)]
    ensures |lines| == 0 <==> o == InputEnded || o == Skipped || Crashes(o)
    ensures o.Conversion? && o.result.Failure? && o.result.error.IoFailure? ==>
              lines == [Say(ConnectionErrorText)]
    ensures o.Conversion? && o.result.Failure? && o.result.error.ApiError? ==>
              lines == [Say(ApiErrorPrefix + ApiErrorMessage(o.result.error.errorType))]
    ensures o.Conversion? && o.result.Success? ==>
              lines == [Sentence(o.result.value.originalAmount, o.result.value.originName,
                                 o.result.value.finalValue, o.result.value.targetName)]
  {
    match o
    case Farewell => [Say(FarewellText)]
    case InvalidOption => [Say(InvalidOptionText)]
    case NotPositive => [Say(NotPositiveText)]
    case Skipped => []
    case InputEnded => []
    case Conversion(_, _, result) =>
      match result
      case Success(d) => [Sentence(d.originalAmount, d.originName, d.finalValue, d.targetName)]
      case Failure(ApiError(errorType)) => [Say(ApiErrorPrefix + ApiErrorMessage(errorType))]
      case Failure(IoFailure(_)) => [Say(ConnectionErrorText)]
      case Failure(Unchecked(_)) => []
  }

  /** A pass that continues the loop prints exactly one line; a pass that
      ends it prints one line for option 8 and none otherwise. */
  lemma OneLinePerContinuingPass(o: Outcome)
    requires o != Skipped
    ensures Continues(o) ==> |Report(o)| == 1
    ensures !Continues(o) ==> (|Report(o)| == 1 <==> o == Farewell)
  {
  }

  // ---------------------------------------------------------------------------
  // The loop
  // ---------------------------------------------------------------------------

  /** How the loop ends: option 8, `NoSuchElementException` when the input
      runs out, or an unchecked exception from the client. */
  datatype Ending = SaidGoodbye | InputExhausted | Crashed

  datatype Session = Session(turns: seq<Outcome>, ending: Ending)

  predicate Continues(o: Outcome) {
    o != Farewell && o != InputEnded && !Crashes(o)
  }

  /** The number of passes among `turns` that called the service. */
  function Calls(turns: seq<Outcome>): nat
    ensures Calls(turns) <= |turns|
  {
    if |turns| == 0 then 0
    else (if turns[0].Conversion? then 1 else 0) + Calls(turns[1..])
  }

  lemma {:induction false} CallsOfPrefix(o: Outcome, rest: seq<Outcome>, i: nat)
    requires 0 < i <= |rest| + 1
    ensures Calls(([o] + rest)[..i]) == (if o.Conversion? then 1 else 0) + Calls(rest[..i - 1])
  {
    assert ([o] + rest)[..i][0] == o;
    assert ([o] + rest)[..i][1..] == rest[..i - 1];
  }

  /** Every conversion among `turns` got the service's answer to the same
      request with the number of calls made before it, the first being `calls`. */
  predicate AnsweredInOrder(turns: seq<Outcome>, convert: Converter, calls: nat)
    decreases |turns|
  {
    |turns| > 0 ==>
      && (turns[0].Conversion? ==>
            turns[0].result == convert(calls, turns[0].pair.origin, turns[0].pair.target, turns[0].amount))
      && AnsweredInOrder(turns[1..], convert, calls + (if turns[0].Conversion? then 1 else 0))
  }

  /** The shape every session has: no pass is an exhausted input or a
      return without a pair, every pass but the last continues the loop, the
      ending is goodbye exactly after option 8 and a crash exactly after an
      unchecked exception, and every service call used a menu pair and a
      positive amount. */
  predicate WellFormedSession(s: Session) {
    && (forall i :: 0 <= i < |s.turns| ==> s.turns[i] != InputEnded && s.turns[i] != Skipped)
    && (forall i :: 0 <= i < |s.turns| - 1 ==> Continues(s.turns[i]))
    && (s.ending == SaidGoodbye <==> |s.turns| > 0 && s.turns[|s.turns| - 1] == Farewell)
    && (s.ending == Crashed <==> |s.turns| > 0 && Crashes(s.turns[|s.turns| - 1]))
    && (forall i :: 0 <= i < |s.turns| && s.turns[i].Conversion? ==>
          s.turns[i].pair in MenuPairs && s.turns[i].amount > 0.0)
  }

  lemma ContinuingPassKeepsShape(o: Outcome, s: Session)
    requires WellFormedSession(s)
    requires Continues(o) && o != Skipped
    requires o.Conversion? ==> o.pair in MenuPairs && o.amount > 0.0
    ensures WellFormedSession(Session([o] + s.turns, s.ending))
  {
    var turns := [o] + s.turns;
    assert forall i :: 0 < i < |turns| ==> turns[i] == s.turns[i - 1];
  }

  /** The menu loop, its first service call numbered `calls`. The first pass
      follows the first tokens: no pass when the input runs out before an
      option or its amount, goodbye alone for option 8, a rejection for any
      other option outside 1 to 7 or an amount that is not positive, and
      otherwise the service's answer for the option's pair. The session is
      well formed, and the service calls were answered in order. */
  function Run(input: seq<Token>, convert: Converter, calls: nat): (s: Session)
    ensures |s.turns| <= |input|
    ensures |s.turns| == 0 <==> |input| == 0 || (|input| == 1 && 1 <= ReadOption(input[0]) <= 7)
    ensures |input| > 0 && ReadOption(input[0]) == ExitOption ==> s.turns == [Farewell]
    ensures |input| > 0 && !(1 <= ReadOption(input[0]) <= ExitOption) ==> s.turns[0] == InvalidOption
    ensures |input| > 1 && 1 <= ReadOption(input[0]) <= 7 && ReadAmount(input[1]) <= 0.0 ==>
              s.turns[0] == NotPositive
    ensures |input| > 1 && 1 <= ReadOption(input[0]) <= 7 && ReadAmount(input[1]) > 0.0 ==>
              var pair := PairFor(ReadOption(input[0])).value;
              s.turns[0] == Conversion(pair, ReadAmount(input[1]), convert(calls, pair.origin, pair.target, ReadAmount(input[1])))
    ensures WellFormedSession(s)
    ensures AnsweredInOrder(s.turns, convert, calls)
    decreases |input|
  {
    var t := Step(input, convert, calls);
    if t.outcome == InputEnded then Session([], InputExhausted)
    else if t.outcome == Farewell then Session([Farewell], SaidGoodbye)
    else if Crashes(t.outcome) then Session([t.outcome], Crashed)
    else
      var s := Run(t.rest, convert, calls + (if t.outcome.Conversion? then 1 else 0));
      var turns := [t.outcome] + s.turns;
      assert turns[1..] == s.turns;
      ContinuingPassKeepsShape(t.outcome, s);
      Session(turns, s.ending)
  }

  /** Read by position: conversion number `i` of the session got the
      service's answer to call number `calls + Calls(turns[..i])`. */
  lemma {:induction false} AnsweredInOrderByPosition(turns: seq<Outcome>, convert: Converter, calls: nat, i: nat)
    requires AnsweredInOrder(turns, convert, calls)
    requires i < |turns| && turns[i].Conversion?
    ensures turns[i].result == convert(calls + Calls(turns[..i]), turns[i].pair.origin, turns[i].pair.target, turns[i].amount)
    decreases i
  {
    if i > 0 {
      var next := calls + (if turns[0].Conversion? then 1 else 0);
      AnsweredInOrderByPosition(turns[1..], convert, next, i - 1);
      CallsOfPrefix(turns[0], turns[1..], i);
      assert [turns[0]] + turns[1..] == turns;
    } else {
      assert turns[..0] == [];
    }
  }

  /** A pass that continues the loop is followed by the session on the rest
      of the input, with the call count advanced by the calls it made. */
  lemma ContinuingPassIsFollowedByTheRest(input: seq<Token>, convert: Converter, calls: nat)
    requires Continues(Step(input, convert, calls).outcome)
    ensures var t := Step(input, convert, calls);
            var s := Run(t.rest, convert, calls + (if t.outcome.Conversion? then 1 else 0));
            Run(input, convert, calls) == Session([t.outcome] + s.turns, s.ending)
  {
  }

  /** An option outside 1 to 8 is rejected and the loop goes on with the next token. */
  lemma InvalidOptionContinues(input: seq<Token>, convert: Converter, calls: nat)
    requires |input| > 0 && !(1 <= ReadOption(input[0]) <= ExitOption)
    ensures Run(input, convert, calls).turns == [InvalidOption] + Run(input[1..], convert, calls).turns
    ensures Run(input, convert, calls).ending == Run(input[1..], convert, calls).ending
  {
    ContinuingPassIsFollowedByTheRest(input, convert, calls);
  }

  /** An amount that is not positive is rejected, the service is not called,
      and the loop goes on after the amount. */
  lemma NotPositiveContinues(input: seq<Token>, convert: Converter, calls: nat)
    requires |input| > 1 && 1 <= ReadOption(input[0]) <= 7 && ReadAmount(input[1]) <= 0.0
    ensures Run(input, convert, calls).turns == [NotPositive] + Run(input[2..], convert, calls).turns
    ensures Run(input, convert, calls).ending == Run(input[2..], convert, calls).ending
  {
    ContinuingPassIsFollowedByTheRest(input, convert, calls);
  }

  /** A conversion whose failure is not an unchecked exception is reported and
      the loop goes on after the amount, with the next call numbered one higher. */
  lemma ConversionContinues(input: seq<Token>, convert: Converter, calls: nat)
    requires |input| > 1 && 1 <= ReadOption(input[0]) <= 7 && ReadAmount(input[1]) > 0.0
    requires var pair := PairFor(ReadOption(input[0])).value;
             var r := convert(calls, pair.origin, pair.target, ReadAmount(input[1]));
             r.Failure? ==> !r.error.Unchecked?
    ensures var pair := PairFor(ReadOption(input[0])).value;
            var o := Conversion(pair, ReadAmount(input[1]), convert(calls, pair.origin, pair.target, ReadAmount(input[1])));
            && Run(input, convert, calls).turns == [o] + Run(input[2..], convert, calls + 1).turns
            && Run(input, convert, calls).ending == Run(input[2..], convert, calls + 1).ending
  {
    ContinuingPassIsFollowedByTheRest(input, convert, calls);
  }

  /** Option 8 ends the loop at once, whatever follows and whatever the service. */
  lemma ExitEndsTheLoop(input: seq<Token>, convert: Converter, calls: nat)
    requires |input| > 0 && ReadOption(input[0]) == ExitOption
    ensures Run(input, convert, calls) == Session([Farewell], SaidGoodbye)
  {
  }

  /** A session in which the service was never called is the same whatever
      the service would have answered. */
  lemma {:induction false} SessionWithoutConversionsIgnoresService(input: seq<Token>, c1: Converter, c2: Converter, calls: nat)
    requires Calls(Run(input, c1, calls).turns) == 0
    ensures Run(input, c1, calls) == Run(input, c2, calls)
    decreases |input|
  {
    var t := Step(input, c1, calls);
    var r1 := Run(input, c1, calls);
    assert !t.outcome.Conversion? by {
      if t.outcome != InputEnded {
        assert r1.turns[0] == t.outcome;
      }
    }
    OnlyConversionsUseTheService(input, c1, c2, calls);
    if Continues(t.outcome) {
      ContinuingPassIsFollowedByTheRest(input, c1, calls);
      ContinuingPassIsFollowedByTheRest(input, c2, calls);
      var s1 := Run(t.rest, c1, calls);
      assert r1.turns[1..] == s1.turns;
      SessionWithoutConversionsIgnoresService(t.rest, c1, c2, calls);
    }
  }

  /** Exchange of 50 USD for ARS at a rate of 1000, then option 8. */
  lemma DollarToPesoExample()
    ensures var client := (b: string, t: string, a: real) =>
              Success(ConversionResult("USD", "ARS", 1000.0, 50000.0));
            var convert := (k: nat, o: string, t: string, a: real) => ConversorService.Convert(client, o, t, a);
            var s := Run([Token(Some(1), Some(1.0)), Token(Some(50), Some(50.0)), Token(Some(8), Some(8.0))], convert, 0);
            && s.ending == SaidGoodbye
            && |s.turns| == 2
            && Report(s.turns[0]) == [Sentence(50.0, "dólares estadounidenses", 50000.0, "pesos argentinos")]
  {
    RegisteredNames();
  }

  // ---------------------------------------------------------------------------
  // The program
  // ---------------------------------------------------------------------------

  /** A run of `main`: stopped at start-up for want of a key, or the loop
      with the client built from the resolved key. */
  datatype Execution = KeyMissing | Started(client: Client, session: Session)

  /** The client's `convert` as the `k`-th GET of the run. */
  function Request(client: Client, net: Network, k: nat): ClientCall {
    (b: string, t: string, a: real) => ExchangeRateApiClient.Convert(client, net, k, b, t, a)
  }

  /** The service of a run: `convertir` over the client, call number `k` of
      the run being the `k`-th GET on the network. */
  function SessionConverter(client: Client, net: Network): Converter {
    (k: nat, o: string, t: string, a: real) => ConversorService.Convert(Request(client, net, k), o, t, a)
  }

  /** Every call of the run's service is one GET of the pair URL for the
      upper-cased codes; its failures are shown as they are. */
  lemma SessionConverterAsksUpperCasedPair(client: Client, net: Network, k: nat, o: string, t: string, a: real)
    ensures var answer := ExchangeRateApiClient.Convert(client, net, k, ToUpperCase(o), ToUpperCase(t), a);
            var r := SessionConverter(client, net)(k, o, t, a);
            && (r.Failure? <==> answer.Failure?)
            && (answer.Failure? ==> r.error == answer.error)
            && (answer.Success? ==> r.value.finalValue == answer.value.conversionResult)
  {
    assert SessionConverter(client, net)(k, o, t, a) == ConversorService.Convert(Request(client, net, k), o, t, a);
    assert Request(client, net, k)(ToUpperCase(o), ToUpperCase(t), a)
        == ExchangeRateApiClient.Convert(client, net, k, ToUpperCase(o), ToUpperCase(t), a);
  }

  /** `main`, with the environment value, the configuration file, the console
      input and the network as parameters. A missing or blank key stops the
      program before the loop; otherwise the client accepts the key and keeps
      it exactly as resolved, and the loop runs on the whole input with that
      client's service, its first call being the first GET. */
  function Launch(env: Option<string>, file: ConfigFileState, input: seq<Token>, net: Network): (e: Execution)
    ensures e.KeyMissing? <==> GetApiKey(env, file).None? || IsBlank(GetApiKey(env, file).value)
    ensures e.Started? ==> NewClient(GetApiKey(env, file)) == Success(e.client)
    ensures e.Started? ==> Some(e.client.apiKey) == GetApiKey(env, file)
    ensures e.Started? ==> e.session == Run(input, SessionConverter(e.client, net), 0)
  {
    var key := GetApiKey(env, file);
    if key.None? || IsBlank(key.value) then KeyMissing
    else
      NewClientKeepsTrimmedKey(key.value);
      var client := NewClient(key).value;
      Started(client, Run(input, SessionConverter(client, net), 0))
  }

  /** With no usable environment value, a file key that stays non-blank once
      trimmed starts the loop with the client holding that trimmed key. */
  lemma LaunchUsesFileKey(env: Option<string>, file: ConfigFileState, input: seq<Token>, net: Network)
    requires !HasEnvKey(env) && HasFileKey(file)
    requires !IsBlank(Trim(file.properties[ConfigKey]))
    ensures Launch(env, file, input, net).Started?
    ensures Launch(env, file, input, net).client == Client(Trim(file.properties[ConfigKey]))
  {
  }

  /** A usable key and option 8 as the first input: goodbye, and exit status 0. */
  lemma LaunchThenExit(env: Option<string>, file: ConfigFileState, input: seq<Token>, net: Network)
    requires GetApiKey(env, file).Some? && !IsBlank(GetApiKey(env, file).value)
    requires |input| > 0 && ReadOption(input[0]) == ExitOption
    ensures var e := Launch(env, file, input, net);
            e.Started? && e.session == Session([Farewell], SaidGoodbye) && ExitStatus(e) == 0
  {
    var e := Launch(env, file, input, net);
    assert e.session == Run(input, SessionConverter(e.client, net), 0);
    ExitEndsTheLoop(input, SessionConverter(e.client, net), 0);
  }

  /** The environment value is checked for blankness before it is trimmed, so
      a value of U+0001 alone wins over a usable file key, trims to the empty
      string, and the program stops for want of a key. */
  lemma ControlCharacterEnvShadowsFile(input: seq<Token>, net: Network)
    ensures GetApiKey(Some("\U{1}"), Loaded(map[ConfigKey := "k"])) == Some("")
    ensures Launch(Some("\U{1}"), Loaded(map[ConfigKey := "k"]), input, net) == KeyMissing
  {
    TrimAndBlankDisagree();
  }

  /** Lines written to the error stream before the loop. */
  function StartupErrors(e: Execution): (lines: seq<string>)
    ensures |lines| > 0 <==> e.KeyMissing?
    ensures e.KeyMissing? ==> lines == MissingKeyLines
  {
    if e.KeyMissing? then MissingKeyLines else []
  }

  /** The process exit status: 0 only after option 8; 1 for a missing key
      (`System.exit(1)`) and for an exception that escapes `main`. */
  function ExitStatus(e: Execution): (code: int)
    ensures code == 0 <==> e.Started? && e.session.ending == SaidGoodbye
    ensures code == 0 || code == 1
  {
    match e
    case KeyMissing => 1
    case Started(_, session) => if session.ending == SaidGoodbye then 0 else 1
  }
}

=== FILE: conversor_service.dfy ===
/** The conversion service: upper-cases the codes, asks the client, and dresses
    the client's answer with Spanish currency names for display. The client is
    a parameter, so the service can be stated for every possible answer. */
module ConversorService {
  import opened Wrappers
  import opened JavaText
  import opened ExchangeRateApiClient

  /** The display names of the nine registered currencies. */
  const CurrencyNames: map<string, string> := map[
    "USD" := "dólares estadounidenses",
    "ARS" := "pesos argentinos",
    "BRL" := "reales brasileños",
    "COP" := "pesos colombianos",
    "EUR" := "euros",
    "GBP" := "libras esterlinas",
    "MXN" := "pesos mexicanos",
    "CLP" := "pesos chilenos",
    "BOB" := "bolivianos"
  ]

  /** `NOMBRES_MONEDAS.getOrDefault(code, code)`: the registered name, and the
      code itself exactly when the code is not registered. */
  function DisplayName(code: string): (name: string)
    ensures code in CurrencyNames ==> name == CurrencyNames[code]
    ensures name == code <==> code !in CurrencyNames
  {
    if code in CurrencyNames then CurrencyNames[code] else code
  }

  /** Each registered code has its own name. */
  lemma RegisteredNamesAreDistinct(c1: string, c2: string)
    requires c1 in CurrencyNames && c2 in CurrencyNames && c1 != c2
    ensures DisplayName(c1) != DisplayName(c2)
  {
  }

  lemma RegisteredNames()
    ensures DisplayName("USD") == "dólares estadounidenses"
    ensures DisplayName("ARS") == "pesos argentinos"
    ensures DisplayName("BRL") == "reales brasileños"
    ensures DisplayName("COP") == "pesos colombianos"
    ensures DisplayName("EUR") == "euros"
    ensures DisplayName("GBP") == "libras esterlinas"
    ensures DisplayName("MXN") == "pesos mexicanos"
    ensures DisplayName("CLP") == "pesos chilenos"
    ensures DisplayName("BOB") == "bolivianos"
  {
  }

  /** Exactly these nine codes are registered. */
  lemma NineRegisteredCurrencies()
    ensures CurrencyNames.Keys == {"USD", "ARS", "BRL", "COP", "EUR", "GBP", "MXN", "CLP", "BOB"}
  {
  }

  /** `ResultadoConversion`. */
  datatype DisplayResult = DisplayResult(
    originCode: string,
    targetCode: string,
    originName: string,
    targetName: string,
    originalAmount: real,
    rate: real,
    finalValue: real)

  /** `ExchangeRateApiClient.convert` as the service sees it. */
  type ClientCall = (string, string, real) -> Result<ConversionResult, ClientError>

  /** `convertir`: the client is asked once, with both codes upper-cased. A
      failure is passed on unchanged. On success the codes, rate and final
      value are the client's (not the request's), the names are looked up from
      the client's codes, and the requested amount is kept as given. */
  function Convert(client: ClientCall, origin: string, target: string, amount: real)
    : (r: Result<DisplayResult, ClientError>)
    ensures var answer := client(ToUpperCase(origin), ToUpperCase(target), amount);
            && (r.Failure? <==> answer.Failure?)
            && (answer.Failure? ==> r.error == answer.error)
            && (answer.Success? ==>
                  && r.value.originCode == answer.value.baseCode
                  && r.value.targetCode == answer.value.targetCode
                  && r.value.originName == DisplayName(answer.value.baseCode)
                  && r.value.targetName == DisplayName(answer.value.targetCode)
                  && r.value.originalAmount == amount
                  && r.value.rate == answer.value.conversionRate
                  && r.value.finalValue == answer.value.conversionResult)
  {
    var result :- client(ToUpperCase(origin), ToUpperCase(target), amount);
    Success(DisplayResult(
      result.baseCode,
      result.targetCode,
      DisplayName(result.baseCode),
      DisplayName(result.targetCode),
      amount,
      result.conversionRate,
      result.conversionResult))
  }

  /** Letter case in the requested codes makes no difference. */
  lemma ConvertIgnoresCase(client: ClientCall, origin: string, target: string, amount: real)
    ensures Convert(client, origin, target, amount)
         == Convert(client, ToUpperCase(origin), ToUpperCase(target), amount)
  {
    ToUpperCaseIdempotent(origin);
    ToUpperCaseIdempotent(target);
  }

  /** Only the client's answer for the upper-cased codes matters. */
  lemma ConvertConsultsUpperCaseOnly(c1: ClientCall, c2: ClientCall, origin: string, target: string, amount: real)
    requires c1(ToUpperCase(origin), ToUpperCase(target), amount) == c2(ToUpperCase(origin), ToUpperCase(target), amount)
    ensures Convert(c1, origin, target, amount) == Convert(c2, origin, target, amount)
  {
  }
}

=== FILE: exchange_rate_api_client.dfy ===
/** The client of the Exchange Rate API v6 pair-conversion endpoint: key
    validation, the request URL, and the classification of the HTTP response.
    The HTTP exchange itself is an oracle (`Network`); the JSON body is given
    as the map of its top-level fields. */
module ExchangeRateApiClient {
  import opened Wrappers
  import opened JavaText

  const UrlTemplate: string := "https://v6.exchangerate-api.com/v6/%s/pair/%s/%s/%s"
  const UrlPrefix: string := "https://v6.exchangerate-api.com/v6/"
  const HttpOk: int := 200
  const KeyRejectedMessage: string := "La API key no puede ser nula ni vacía."

  // ---------------------------------------------------------------------------
  // Construction
  // ---------------------------------------------------------------------------

  datatype Client = Client(apiKey: string)

  /** The `IllegalArgumentException` thrown by the constructor. */
  datatype ConstructorError = IllegalArgument(message: string)

  /** The constructor: a null (`None`) or blank key is rejected, any other key
      is kept trimmed. */
  function NewClient(apiKey: Option<string>): (r: Result<Client, ConstructorError>)
    ensures r.Success? <==> apiKey.Some? && !IsBlank(apiKey.value)
    ensures r.Failure? ==> r.error == IllegalArgument(KeyRejectedMessage)
    ensures r.Success? ==> r.value.apiKey == Trim(apiKey.value) && IsTrimmed(r.value.apiKey)
  {
    if apiKey.None? || IsBlank(apiKey.value) then Failure(IllegalArgument(KeyRejectedMessage))
    else Success(Client(Trim(apiKey.value)))
  }

  /** A key that is already trimmed is stored exactly as given. */
  lemma NewClientKeepsTrimmedKey(key: string)
    requires !IsBlank(key) && IsTrimmed(key)
    ensures NewClient(Some(key)) == Success(Client(key))
  {
    TrimOfTrimmed(key);
  }

  // ---------------------------------------------------------------------------
  // Request URL
  // ---------------------------------------------------------------------------

  lemma Regroup(p: string, k: string, s1: string, b: string, s2: string, t: string, a: string)
    ensures p + (k + (s1 + (b + (s2 + (t + (s2 + (a + ""))))))) == p + k + s1 + b + s2 + t + s2 + a
  {
    assert a + "" == a;
  }

  /** A template with four `%s` slots and `%`-free text around them. */
  lemma FormatFourSlots(p: string, m: string, s: string, args: seq<string>)
    requires '%' !in p && '%' !in m && '%' !in s && |args| == 4
    ensures OnlyStringConversions(p + ("%s" + (m + ("%s" + (s + ("%s" + (s + ("%s" + ""))))))))
    ensures Format(p + ("%s" + (m + ("%s" + (s + ("%s" + (s + ("%s" + ""))))))), args)
         == Some(p + (args[0] + (m + (args[1] + (s + (args[2] + (s + (args[3] + ""))))))))
  {
    assert args[3..][1..] == [] && args[2..][1..] == args[3..] && args[1..][1..] == args[2..];
    assert Format("", []) == Some("");
    FormatStep(s, "", args[3..], "");
    var r1 := s + ("%s" + "");
    var x1 := s + (args[3] + "");
    FormatStep(s, r1, args[2..], x1);
    var r2 := s + ("%s" + r1);
    var x2 := s + (args[2] + x1);
    FormatStep(m, r2, args[1..], x2);
    var r3 := m + ("%s" + r2);
    var x3 := m + (args[1] + x2);
    FormatStep(p, r3, args, x3);
  }

  lemma TemplateShape()
    ensures UrlTemplate == UrlPrefix + ("%s" + ("/pair/" + ("%s" + ("/" + ("%s" + ("/" + ("%s" + "")))))))
    ensures '%' !in UrlPrefix && '%' !in "/pair/" && '%' !in "/"
  {
  }

  lemma FormatPairTemplate(key: string, base: string, target: string, amount: string)
    ensures OnlyStringConversions(UrlTemplate)
    ensures Format(UrlTemplate, [key, base, target, amount])
         == Some(UrlPrefix + key + "/pair/" + base + "/" + target + "/" + amount)
  {
    TemplateShape();
    FormatFourSlots(UrlPrefix, "/pair/", "/", [key, base, target, amount]);
    Regroup(UrlPrefix, key, "/pair/", base, "/", target, amount);
  }

  /** `String.format(BASE_URL, apiKey, baseCode, targetCode, amount)`, where
      `amount` is the text of the amount: the four values fill the pair path
      in that order, unescaped. */
  function RequestUrl(apiKey: string, base: string, target: string, amount: string): (url: string)
    ensures url == UrlPrefix + apiKey + "/pair/" + base + "/" + target + "/" + amount
  {
    FormatPairTemplate(apiKey, base, target, amount);
    Format(UrlTemplate, [apiKey, base, target, amount]).value
  }

  datatype PairRequest = PairRequest(apiKey: string, base: string, target: string, amount: string)

  /** Reads the four values back out of a pair-conversion URL. */
  function ParseRequestUrl(url: string): Option<PairRequest> {
    if |url| < |UrlPrefix| || url[..|UrlPrefix|] != UrlPrefix then None
    else
      var parts := Split(url[|UrlPrefix|..], '/');
      if |parts| == 5 && parts[1] == "pair" then Some(PairRequest(parts[0], parts[2], parts[3], parts[4]))
      else None
  }

  lemma Regroup2(p: string, k: string, s: string, m: string, b: string, t: string, a: string)
    ensures p + k + (s + m + s) + b + s + t + s + a == p + (k + s + (m + s + (b + s + (t + s + a))))
  {
  }

  lemma PairSegment()
    ensures "/pair/" == ['/'] + "pair" + ['/']
    ensures "/" == ['/']
    ensures '/' !in "pair"
  {
  }

  /** The path after the prefix is the four values and "pair" joined by '/'. */
  lemma RequestUrlIsJoin(apiKey: string, base: string, target: string, amount: string)
    ensures RequestUrl(apiKey, base, target, amount)
         == UrlPrefix + Join([apiKey, "pair", base, target, amount], '/')
  {
    PairSegment();
    JoinFive(apiKey, "pair", base, target, amount, '/');
    Regroup2(UrlPrefix, apiKey, ['/'], "pair", base, target, amount);
  }

  lemma ParsePrefixed(rest: string, apiKey: string, base: string, target: string, amount: string)
    requires Split(rest, '/') == [apiKey, "pair", base, target, amount]
    ensures ParseRequestUrl(UrlPrefix + rest) == Some(PairRequest(apiKey, base, target, amount))
  {
    assert (UrlPrefix + rest)[..|UrlPrefix|] == UrlPrefix;
    assert (UrlPrefix + rest)[|UrlPrefix|..] == rest;
  }

  /** When no value contains '/', the URL determines key, base, target and
      amount, each in its own position. */
  lemma RequestUrlRoundTrip(apiKey: string, base: string, target: string, amount: string)
    requires '/' !in apiKey && '/' !in base && '/' !in target && '/' !in amount
    ensures ParseRequestUrl(RequestUrl(apiKey, base, target, amount)) == Some(PairRequest(apiKey, base, target, amount))
  {
    var parts := [apiKey, "pair", base, target, amount];
    PairSegment();
    SplitJoin(parts, '/');
    ParsePrefixed(Join(parts, '/'), apiKey, base, target, amount);
    RequestUrlIsJoin(apiKey, base, target, amount);
  }

  // ---------------------------------------------------------------------------
  // Response classification
  // ---------------------------------------------------------------------------

  /** A top-level JSON member as Gson sees it: a primitive has its
      `getAsString` text and its `getAsDouble` value (`None` when that throws
      `NumberFormatException`); objects, arrays and `null` are not primitives. */
  datatype JsonValue = Primitive(text: string, number: Option<real>) | NonPrimitive

  /** The body of a 200 response: `getInputStream` failed, the body is not a
      JSON object (syntax error, broken stream, another root), or its fields. */
  datatype Body =
    | StreamUnavailable
    | NotAJsonObject
    | JsonObject(fields: map<string, JsonValue>)

  /** The outcome of the GET: no connection or status, or a status and body. */
  datatype HttpExchange = ConnectFailure | Response(status: int, body: Body)

  /** The outside world: the answer to the GET of a URL, and `Double.toString`.
      Each GET is a fresh request, so the answer also depends on how many GETs
      came before it in the run: the rate may move, or a timeout may be
      followed by a success. */
  datatype Network = Network(exchange: (nat, string) -> HttpExchange, amountText: real -> string)

  datatype ConversionResult = ConversionResult(
    baseCode: string,
    targetCode: string,
    conversionRate: real,
    conversionResult: real)

  datatype IoCause = NoConnection | HttpStatus(code: int) | BodyUnavailable

  /** Unchecked exceptions on an unexpected body, which the client does not
      catch: Gson's own when the body is not a JSON object or a member is not
      a readable primitive, and the `NullPointerException` of calling
      `getAsString` or `getAsDouble` on the `null` that `json.get` returns for
      a missing member. */
  datatype UncheckedCause = BodyNotJsonObject | FieldMissing(name: string) | FieldNotReadable(name: string)

  /** `ExchangeRateApiException`, `IOException`, or an unchecked exception. */
  datatype ClientError =
    | ApiError(errorType: string)
    | IoFailure(cause: IoCause)
    | Unchecked(uncheckedCause: UncheckedCause)

  predicate HasString(fields: map<string, JsonValue>, name: string) {
    name in fields && fields[name].Primitive?
  }

  predicate HasNumber(fields: map<string, JsonValue>, name: string) {
    name in fields && fields[name].Primitive? && fields[name].number.Some?
  }

  /** `json.get(name).getAsString()`. */
  function GetString(fields: map<string, JsonValue>, name: string): Result<string, ClientError> {
    if name !in fields then Failure(Unchecked(FieldMissing(name)))
    else match fields[name]
      case Primitive(text, _) => Success(text)
      case NonPrimitive => Failure(Unchecked(FieldNotReadable(name)))
  }

  /** `json.get(name).getAsDouble()`. */
  function GetNumber(fields: map<string, JsonValue>, name: string): Result<real, ClientError> {
    if name !in fields then Failure(Unchecked(FieldMissing(name)))
    else match fields[name]
      case Primitive(_, Some(x)) => Success(x)
      case Primitive(_, None) => Failure(Unchecked(FieldNotReadable(name)))
      case NonPrimitive => Failure(Unchecked(FieldNotReadable(name)))
  }

  predicate SaysError(fields: map<string, JsonValue>) {
    HasString(fields, "result") && fields["result"].text == "error"
  }

  predicate WellFormedSuccess(fields: map<string, JsonValue>) {
    && HasString(fields, "result") && fields["result"].text != "error"
    && HasString(fields, "base_code") && HasString(fields, "target_code")
    && HasNumber(fields, "conversion_rate") && HasNumber(fields, "conversion_result")
  }

  /** The JSON object of a 200 response. `result == "error"` is an API error
      carrying `error-type` (or "unknown" when absent); otherwise the four
      fields are returned verbatim; anything unreadable is an unchecked failure. */
  function ClassifyObject(fields: map<string, JsonValue>): (r: Result<ConversionResult, ClientError>)
    ensures r.Success? <==> WellFormedSuccess(fields)
    ensures r.Success? ==> r.value == ConversionResult(
              fields["base_code"].text, fields["target_code"].text,
              fields["conversion_rate"].number.value, fields["conversion_result"].number.value)
    ensures (r.Failure? && r.error.ApiError?) <==>
              SaysError(fields) && ("error-type" !in fields || fields["error-type"].Primitive?)
    ensures r.Failure? && r.error.ApiError? ==>
              r.error.errorType == (if "error-type" in fields then fields["error-type"].text else "unknown")
    ensures r.Failure? ==> !r.error.IoFailure?
  {
    var result :- GetString(fields, "result");
    if result == "error" then
      if "error-type" in fields then
        var errorType :- GetString(fields, "error-type");
        Failure(ApiError(errorType))
      else
        Failure(ApiError("unknown"))
    else
      var base :- GetString(fields, "base_code");
      var target :- GetString(fields, "target_code");
      var rate :- GetNumber(fields, "conversion_rate");
      var value :- GetNumber(fields, "conversion_result");
      Success(ConversionResult(base, target, rate, value))
  }

  /** The whole response. Any status other than 200 is an `IOException`
      carrying that status, decided before the body is looked at. */
  function Classify(exchange: HttpExchange): (r: Result<ConversionResult, ClientError>)
    ensures exchange.ConnectFailure? ==> r == Failure(IoFailure(NoConnection))
    ensures exchange.Response? && exchange.status != HttpOk ==>
              r == Failure(IoFailure(HttpStatus(exchange.status)))
    ensures (r.Failure? && r.error.IoFailure?) <==>
              exchange.ConnectFailure? || exchange.status != HttpOk || exchange.body.StreamUnavailable?
    ensures r.Success? || r.error.ApiError? ==>
              exchange.Response? && exchange.status == HttpOk && exchange.body.JsonObject?
    ensures exchange.Response? && exchange.status == HttpOk ==>
              match exchange.body
              case StreamUnavailable => r == Failure(IoFailure(BodyUnavailable))
              case NotAJsonObject => r == Failure(Unchecked(BodyNotJsonObject))
              case JsonObject(fields) => r == ClassifyObject(fields)
  {
    match exchange
    case ConnectFailure => Failure(IoFailure(NoConnection))
    case Response(status, body) =>
      if status != HttpOk then Failure(IoFailure(HttpStatus(status)))
      else match body
        case StreamUnavailable => Failure(IoFailure(BodyUnavailable))
        case NotAJsonObject => Failure(Unchecked(BodyNotJsonObject))
        case JsonObject(fields) => ClassifyObject(fields)
  }

  /** The body of a non-200 response is never inspected. */
  lemma StatusDecidesFirst(status: int, b1: Body, b2: Body)
    requires status != HttpOk
    ensures Classify(Response(status, b1)) == Classify(Response(status, b2))
  {
  }

  /** `convert` as the `request`-th GET of the run: one GET of the pair URL,
      built from the stored key, the two codes as given and the amount's
      text, and that answer classified. */
  function Convert(client: Client, net: Network, request: nat, base: string, target: string, amount: real)
    : (r: Result<ConversionResult, ClientError>)
    ensures r == Classify(net.exchange(request,
                  UrlPrefix + client.apiKey + "/pair/" + base + "/" + target + "/" + net.amountText(amount)))
  {
    Classify(net.exchange(request, RequestUrl(client.apiKey, base, target, net.amountText(amount))))
  }

  /** The result depends on the world only through the one answer to the pair
      URL: two networks that give the same answer there give the same result. */
  lemma ConvertDependsOnlyOnTheAnswer(client: Client, n1: Network, n2: Network, request: nat,
                                      base: string, target: string, amount: real)
    requires n1.amountText(amount) == n2.amountText(amount)
    requires var url := RequestUrl(client.apiKey, base, target, n1.amountText(amount));
             n1.exchange(request, url) == n2.exchange(request, url)
    ensures Convert(client, n1, request, base, target, amount) == Convert(client, n2, request, base, target, amount)
  {
  }

  /** A 200 answer with the four success fields is returned field by field,
      whatever the codes and amount that were asked for. */
  lemma ConvertReturnsTheApiFields(client: Client, net: Network, request: nat,
                                   base: string, target: string, amount: real,
                                   fields: map<string, JsonValue>)
    requires WellFormedSuccess(fields)
    requires net.exchange(request, RequestUrl(client.apiKey, base, target, net.amountText(amount)))
          == Response(HttpOk, JsonObject(fields))
    ensures Convert(client, net, request, base, target, amount)
         == Success(ConversionResult(fields["base_code"].text, fields["target_code"].text,
                                     fields["conversion_rate"].number.value,
                                     fields["conversion_result"].number.value))
  {
  }

  /** The GET asks for exactly the requested pair: when no value contains '/',
      the stored key, both codes and the amount's text are read back from the
      URL that `convert` requests. */
  lemma ConvertAsksForThePair(client: Client, net: Network, request: nat,
                              base: string, target: string, amount: real)
    requires '/' !in client.apiKey && '/' !in base && '/' !in target && '/' !in net.amountText(amount)
    ensures var url := RequestUrl(client.apiKey, base, target, net.amountText(amount));
            && Convert(client, net, request, base, target, amount) == Classify(net.exchange(request, url))
            && ParseRequestUrl(url) == Some(PairRequest(client.apiKey, base, target, net.amountText(amount)))
  {
    RequestUrlRoundTrip(client.apiKey, base, target, net.amountText(amount));
  }
}

=== FILE: java_text.dfy ===
/** The handful of `java.lang.String` operations the converter relies on:
    `trim`, `isBlank`, `toUpperCase` (restricted to ASCII), `String.format`
    with `%s` conversions only, and a split/join pair used to read a request
    path back into its segments. */
module JavaText {
  import opened Wrappers

  // ---------------------------------------------------------------------------
  // trim and isBlank use two different notions of "space"
  // ---------------------------------------------------------------------------

  /** `String.trim` removes every code point up to and including U+0020. */
  predicate IsTrimmable(c: char) {
    c <= ' '
  }

  /** `Character.isWhitespace`: the Unicode space, line and paragraph separators
      except the three no-break spaces, plus U+0009..U+000D and U+001C..U+001F. */
  predicate IsJavaWhitespace(c: char) {
    var n := c as int;
    || 0x09 <= n <= 0x0D
    || 0x1C <= n <= 0x20
    || n == 0x1680
    || 0x2000 <= n <= 0x2006
    || 0x2008 <= n <= 0x200A
    || n == 0x2028
    || n == 0x2029
    || n == 0x205F
    || n == 0x3000
  }

  /** `String.isBlank`: empty, or whitespace only. */
  predicate IsBlank(s: string) {
    forall i :: 0 <= i < |s| ==> IsJavaWhitespace(s[i])
  }

  predicate AllTrimmable(s: string) {
    forall i :: 0 <= i < |s| ==> IsTrimmable(s[i])
  }

  /** Neither end of `s` is a character `trim` would remove. */
  predicate IsTrimmed(s: string) {
    |s| == 0 || (!IsTrimmable(s[0]) && !IsTrimmable(s[|s| - 1]))
  }

  /** Length of the longest trimmable prefix. */
  function LeadingTrimmable(s: string): (n: nat)
    ensures n <= |s|
    ensures forall i :: 0 <= i < n ==> IsTrimmable(s[i])
    ensures n < |s| ==> !IsTrimmable(s[n])
  {
    if |s| == 0 || !IsTrimmable(s[0]) then 0 else 1 + LeadingTrimmable(s[1..])
  }

  /** Length of the longest trimmable suffix. */
  function TrailingTrimmable(s: string): (n: nat)
    ensures n <= |s|
    ensures forall i :: |s| - n <= i < |s| ==> IsTrimmable(s[i])
    ensures n < |s| ==> !IsTrimmable(s[|s| - n - 1])
  {
    if |s| == 0 || !IsTrimmable(s[|s| - 1]) then 0
    else 1 + TrailingTrimmable(s[..|s| - 1])
  }

  /** Drops the longest trimmable suffix. */
  function DropTrailing(s: string): (r: string)
    ensures |r| <= |s|
    ensures forall i :: 0 <= i < |r| ==> r[i] == s[i]
    ensures forall i :: |r| <= i < |s| ==> IsTrimmable(s[i])
    ensures |r| > 0 ==> !IsTrimmable(r[|r| - 1])
  {
    s[..|s| - TrailingTrimmable(s)]
  }

  /** `String.trim`: the result is the part of `s` that starts at the first
      non-trimmable character, every character of `s` outside it is trimmable,
      and it has no trimmable character at either end. */
  function Trim(s: string): (r: string)
    ensures IsTrimmed(r)
    ensures LeadingTrimmable(s) + |r| <= |s|
    ensures forall i :: 0 <= i < |r| ==> r[i] == s[LeadingTrimmable(s) + i]
    ensures forall i :: 0 <= i < LeadingTrimmable(s) ==> IsTrimmable(s[i])
    ensures forall i :: LeadingTrimmable(s) + |r| <= i < |s| ==> IsTrimmable(s[i])
  {
    var n := LeadingTrimmable(s);
    var rest := s[n..];
    var r := DropTrailing(rest);
    assert |r| > 0 ==> r[0] == rest[0] == s[n];
    r
  }

  /** A string made only of trimmable characters trims to nothing. */
  lemma AllTrimmableTrimsAway(s: string)
    requires AllTrimmable(s)
    ensures Trim(s) == ""
  {
  }

  lemma LeadingOfPadded(p: string, rest: string)
    requires AllTrimmable(p) && |rest| > 0 && !IsTrimmable(rest[0])
    ensures LeadingTrimmable(p + rest) == |p|
  {
    var s := p + rest;
    assert forall k :: 0 <= k < |p| ==> s[k] == p[k];
    assert s[|p|] == rest[0];
  }

  /** The decomposition in `Trim`'s contract is unique: padding a trimmed
      string with trimmable characters on either side and trimming gives it back. */
  lemma {:induction false} TrimOfPadded(p: string, t: string, q: string)
    requires AllTrimmable(p) && AllTrimmable(q) && IsTrimmed(t)
    ensures Trim(p + t + q) == t
  {
    var s := p + t + q;
    if |t| == 0 {
      assert s == p + q;
      assert forall k :: |p| <= k < |s| ==> s[k] == q[k - |p|];
      AllTrimmableTrimsAway(s);
    } else {
      assert s == p + (t + q);
      LeadingOfPadded(p, t + q);
      var r := Trim(s);
      assert forall k :: 0 <= k < |t| ==> s[|p| + k] == t[k];
      assert forall k :: |p| + |t| <= k < |s| ==> s[k] == q[k - |p| - |t|];
      assert |r| == |t|;
    }
  }

  lemma TrimIdempotent(s: string)
    ensures Trim(Trim(s)) == Trim(s)
  {
    var t := Trim(s);
    TrimOfPadded("", t, "");
    assert "" + t + "" == t;
  }

  /** Trimming an already trimmed string changes nothing. */
  lemma TrimOfTrimmed(t: string)
    requires IsTrimmed(t)
    ensures Trim(t) == t
  {
    TrimOfPadded("", t, "");
    assert "" + t + "" == t;
  }

  /** `trim` and `isBlank` disagree in both directions: U+0001 is not blank but
      trims away, and U+1680 (Ogham space mark) is blank but survives `trim`. */
  lemma TrimAndBlankDisagree()
    ensures !IsBlank("\U{1}") && Trim("\U{1}") == ""
    ensures IsBlank("\U{1680}") && Trim("\U{1680}") == "\U{1680}"
  {
    assert !IsJavaWhitespace("\U{1}"[0]);
    TrimOfPadded("\U{1}", "", "");
    assert "\U{1}" + "" + "" == "\U{1}";
    TrimOfTrimmed("\U{1680}");
  }

  // ---------------------------------------------------------------------------
  // toUpperCase, restricted to ASCII letters
  // ---------------------------------------------------------------------------

  predicate IsLowerAscii(c: char) {
    'a' <= c <= 'z'
  }

  function UpperChar(c: char): char {
    if IsLowerAscii(c) then (c as int - 32) as char else c
  }

  /** Upper-cases ASCII letters one by one and leaves every other character alone. */
  function ToUpperCase(s: string): (r: string)
    ensures |r| == |s|
    ensures forall i :: 0 <= i < |s| ==> r[i] == UpperChar(s[i])
    ensures forall i :: 0 <= i < |r| ==> !IsLowerAscii(r[i])
    ensures forall i :: 0 <= i < |s| && !IsLowerAscii(s[i]) ==> r[i] == s[i]
  {
    if |s| == 0 then "" else [UpperChar(s[0])] + ToUpperCase(s[1..])
  }

  lemma ToUpperCaseIdempotent(s: string)
    ensures ToUpperCase(ToUpperCase(s)) == ToUpperCase(s)
  {
  }

  /** A string without lower-case ASCII letters is its own upper-case form. */
  lemma ToUpperCaseOfUpper(s: string)
    requires forall i :: 0 <= i < |s| ==> !IsLowerAscii(s[i])
    ensures ToUpperCase(s) == s
  {
  }

  // ---------------------------------------------------------------------------
  // String.format for templates whose only conversion is %s
  // ---------------------------------------------------------------------------

  /** Every `%` in the template starts a `%s` conversion. */
  predicate OnlyStringConversions(template: string) {
    forall i :: 0 <= i < |template| && template[i] == '%' ==>
      i + 1 < |template| && template[i + 1] == 's'
  }

  /** Number of `%` characters, which under `OnlyStringConversions` is the number of `%s`. */
  function Placeholders(template: string): nat {
    if |template| == 0 then 0
    else (if template[0] == '%' then 1 else 0) + Placeholders(template[1..])
  }

  function Prepend(prefix: string, o: Option<string>): Option<string> {
    match o
    case Some(x) => Some(prefix + x)
    case None => None
  }

  /** `String.format(template, args)`: each `%s` is replaced by the next argument,
      left to right; substituted text is never rescanned. Too few arguments is the
      `MissingFormatArgumentException` (`None`); surplus arguments are ignored. */
  function Format(template: string, args: seq<string>): (r: Option<string>)
    requires OnlyStringConversions(template)
    ensures r.Some? <==> Placeholders(template) <= |args|
    decreases |template|
  {
    if |template| == 0 then Some("")
    else if template[0] == '%' then
      assert template[1] == 's';
      assert Placeholders(template[1..]) == Placeholders(template[2..]);
      if |args| == 0 then None else Prepend(args[0], Format(template[2..], args[1..]))
    else
      Prepend([template[0]], Format(template[1..], args))
  }

  /** A literal prefix (no `%`) is copied to the output unchanged. */
  lemma {:induction false} FormatLiteralPrefix(lit: string, rest: string, args: seq<string>)
    requires '%' !in lit && OnlyStringConversions(rest)
    ensures OnlyStringConversions(lit + rest)
    ensures Format(lit + rest, args) == Prepend(lit, Format(rest, args))
    decreases |lit|
  {
    var t := lit + rest;
    assert forall k :: 0 <= k < |lit| ==> t[k] == lit[k];
    assert forall k :: |lit| <= k < |t| ==> t[k] == rest[k - |lit|];
    if |lit| == 0 {
      assert t == rest;
      match Format(rest, args)
      case Some(x) => assert lit + x == x;
      case None =>
    } else {
      assert t[0] == lit[0];
      assert t[1..] == lit[1..] + rest;
      FormatLiteralPrefix(lit[1..], rest, args);
      match Format(rest, args)
      case Some(x) => assert [lit[0]] + (lit[1..] + x) == lit + x;
      case None =>
    }
  }

  /** A leading `%s` takes the first argument. */
  lemma FormatPlaceholder(rest: string, args: seq<string>)
    requires OnlyStringConversions(rest) && |args| > 0
    ensures OnlyStringConversions("%s" + rest)
    ensures Format("%s" + rest, args) == Prepend(args[0], Format(rest, args[1..]))
  {
    var t := "%s" + rest;
    assert t[2..] == rest;
    assert OnlyStringConversions(t) by {
      forall i | 0 <= i < |t| && t[i] == '%'
        ensures i + 1 < |t| && t[i + 1] == 's'
      {
        if i >= 2 { assert t[i] == rest[i - 2]; }
      }
    }
  }

  /** A literal followed by `%s`: the literal, then the first argument, then the rest. */
  lemma FormatStep(lit: string, rest: string, args: seq<string>, x: string)
    requires '%' !in lit && OnlyStringConversions(rest) && |args| > 0
    requires Format(rest, args[1..]) == Some(x)
    ensures OnlyStringConversions(lit + ("%s" + rest))
    ensures Format(lit + ("%s" + rest), args) == Some(lit + (args[0] + x))
  {
    FormatPlaceholder(rest, args);
    FormatLiteralPrefix(lit, "%s" + rest, args);
  }

  // ---------------------------------------------------------------------------
  // Splitting on, and joining with, a separator
  // ---------------------------------------------------------------------------

  /** `s` cut at every occurrence of `sep`; never empty, no piece contains `sep`. */
  function Split(s: string, sep: char): (parts: seq<string>)
    ensures |parts| >= 1
    ensures forall i :: 0 <= i < |parts| ==> sep !in parts[i]
    decreases |s|
  {
    if |s| == 0 then [""]
    else
      var tail := Split(s[1..], sep);
      if s[0] == sep then [""] + tail else [[s[0]] + tail[0]] + tail[1..]
  }

  function Join(parts: seq<string>, sep: char): string
    requires |parts| >= 1
    decreases |parts|
  {
    if |parts| == 1 then parts[0] else parts[0] + [sep] + Join(parts[1..], sep)
  }

  lemma JoinFive(a: string, b: string, c: string, d: string, e: string, sep: char)
    ensures Join([a, b, c, d, e], sep) == a + [sep] + (b + [sep] + (c + [sep] + (d + [sep] + e)))
  {
    var parts := [a, b, c, d, e];
    assert parts[1..] == [b, c, d, e];
    assert parts[1..][1..] == [c, d, e];
    assert parts[1..][1..][1..] == [d, e];
    assert parts[1..][1..][1..][1..] == [e];
    assert Join([e], sep) == e;
    assert Join([d, e], sep) == d + [sep] + e;
    assert Join([c, d, e], sep) == c + [sep] + (d + [sep] + e);
    assert Join([b, c, d, e], sep) == b + [sep] + (c + [sep] + (d + [sep] + e));
  }

  /** A prefix free of the separator becomes the head of the first piece. */
  lemma {:induction false} SplitPrefix(p: string, rest: string, sep: char)
    requires sep !in p
    ensures Split(p + rest, sep) == [p + Split(rest, sep)[0]] + Split(rest, sep)[1..]
    decreases |p|
  {
    if |p| == 0 {
      assert p + rest == rest;
      assert p + Split(rest, sep)[0] == Split(rest, sep)[0];
    } else {
      assert (p + rest)[1..] == p[1..] + rest;
      SplitPrefix(p[1..], rest, sep);
      assert [p[0]] + (p[1..] + Split(rest, sep)[0]) == p + Split(rest, sep)[0];
    }
  }

  /** `Split` undoes `Join` when no piece contains the separator. */
  lemma {:induction false} SplitJoin(parts: seq<string>, sep: char)
    requires |parts| >= 1
    requires forall i :: 0 <= i < |parts| ==> sep !in parts[i]
    ensures Split(Join(parts, sep), sep) == parts
    decreases |parts|
  {
    if |parts| == 1 {
      SplitPrefix(parts[0], "", sep);
      assert parts[0] + "" == parts[0];
    } else {
      var j := Join(parts[1..], sep);
      SplitJoin(parts[1..], sep);
      assert ([sep] + j)[1..] == j;
      assert Split([sep] + j, sep) == [""] + parts[1..];
      assert parts[0] + [sep] + j == parts[0] + ([sep] + j);
      SplitPrefix(parts[0], [sep] + j, sep);
      assert parts[0] + "" == parts[0];
    }
  }
}

=== FILE: wrappers.dfy ===
/** Failure-compatible wrappers used throughout the model: `Option` stands for a
    Java reference that may be null, `Result` for a value or a thrown exception. */
module Wrappers {

  datatype Option<+T> = None | Some(value: T) {

    predicate IsFailure() {
      None?
    }

    function PropagateFailure<U>(): Option<U>
      requires None?
    {
      None
    }

    function Extract(): T
      requires Some?
    {
      value
    }
  }

  datatype Result<+R, +E> = Success(value: R) | Failure(error: E) {

    predicate IsFailure() {
      Failure?
    }

    function PropagateFailure<U>(): Result<U, E>
      requires Failure?
    {
      Failure(error)
    }

    function Extract(): R
      requires Success?
    {
      value
    }
  }
}
